=== FILE: README.md ===
# Logging core of the items backend, modelled in Dafny

The backend is a small Express server over a MongoDB collection of items. Its own logic is in
how it builds structured log records and decides route outcomes:

- `jlog(event, meta)` builds `{ts, service: 'backend', event, ...meta}`. It prints that record
  as one JSON line and hands it to `sendToLogstash`, a `fetch` POST that is never awaited.
- `GET /health` answers `ok` and logs nothing. It is registered before the request-timing
  middleware and does not pass the request on.
- The request-timing middleware emits one `http_request` record per finished response of every
  later route.
- `POST /client-log` builds `{ts, service: 'frontend', via: 'client-log', ...body}` from a
  browser-supplied record, whose own keys, `ts` included, win; it answers 204.
- `GET` and `POST /api/items` turn the store's answer into a status, a body and one log event.
- At start-up the server logs the Mongo connection string with its credentials masked by
  `uri.replace(/\/\/.*@/, '//*****@')`.

The model is purely functional:

- `Values`: JavaScript values, truthiness, and what object spread copies out of a value.
- `Objects`: objects as ordered property lists, with `Assign` (one property definition) and
  `Spread` (copy every property, left to right). This is the object-spread rule: later values
  win, no key is dropped, an overridden key keeps its position, and new keys are created in
  order of first occurrence. Key order here is creation order (see Left out for integer-like keys).
- `Emission`: an append-only trace of local lines and collector dispatches. `Paired` says every
  local record is immediately followed by the dispatch of that same record.
- `Redaction`: the regular-expression rewrite, modelled as the engine runs it. The engine tries
  start positions left to right. At each start the greedy `.*` runs to the end of the line and
  backs off to the last `@`. `.` does not match the ECMAScript line terminators (section 22.2
  of ECMA-262). The result is proved equal to the declarative leftmost-longest match.
- `Server`: `jlog`, the middleware record and finish hook, the `/client-log` route, the item
  routes, the composition of a route with the middleware, and the start-up logs.
- `Config`, `Wrappers`: environment lookups with their fallbacks, and `Option`/`Result`.

Some values come from outside and are parameters of the model:
- the clock readings (`Date.now()` and `new Date().toISOString()`);
- the environment (`process.env`);
- the parsed request body;
- the document store's answers, as `Result` values.

The server adds no `level` or `message` field of its own; a client record may carry its own,
and those are copied like any other key. No field is derived from the status except `status`
itself. The `/client-log` route gives no `event` default. `POST /api/items` checks the name
only through the schema's `required`, and that rejection arrives as a store failure, which
answers 400.

## Model

| member | source | states |
|---|---|---|
| Objects.Assign | backend/server.js:21-26 | defining one property: the key set gains `k`, `k` reads `v`, other keys read as before, an existing key keeps its place in creation order, a new key is created last, uniqueness of keys is kept |
| Objects.Spread | backend/server.js:21-26 | object spread: keys are the union, a key of the source reads the source's last value for it, other keys keep the target's value, the target's keys stay a prefix of the creation order, uniqueness is kept |
| Objects.SpreadKeyOrder | backend/server.js:21-26 | after a spread the creation order of keys is the target's keys in place, then the source's new keys in order of first occurrence |
| Objects.LastOfObject | backend/server.js:25 | in an object without repeated keys, the value a spread copies for a key is the object's own value for it |
| Values.OwnProps | backend/server.js:80 | what `...body` copies: an object's properties in order; an array's elements and a string's characters under the decimal index keys `"0"`, `"1"`, ...; nothing from a falsy value, a boolean or a number |
| Objects.IndexKeysDistinct | backend/server.js:80 | spreading an array or a string copies distinct index keys, so the copied properties form an object in which key `Decimal(i)` reads array element `i`, or the one-character string at position `i` |
| Emission.Emit | backend/server.js:28-29 | one emission prints nothing else: it writes the record locally as one line and then dispatches the same record to the collector named by `LOGSTASH_URL` or its fallback |
| Emission.PairedAppend | backend/server.js:67-68 | successive emissions compose: the concatenation of paired traces is paired |
| Emission.PairedDispatchesWritten | backend/server.js:82-83 | in a paired trace the collector receives exactly the records written locally, in the same order |
| Server.JLogRecord | backend/server.js:20-26 | the `jlog` record has exactly the keys `ts`, `service`, `event` and those of `meta`; `meta` wins on collisions; absent from `meta`, `service` is `backend` and `event` is the argument; the default `meta` gives exactly three keys |
| Server.JLog | backend/server.js:20-30 | a `jlog` call writes exactly one record and dispatches that same record right after it, and does nothing else |
| Server.RequestRecord | backend/server.js:58-66 | the request record has exactly the seven keys in order and no `level`; `ts` is the finish timestamp, `service` is `backend`, `event` is `http_request`, `method` and `path` are the request's; its `status` is the given code and its `duration_ms` is finish time minus start time |
| Server.OnFinish | backend/server.js:57-69 | the finish hook emits exactly one request record, written then dispatched |
| Server.ClientLogRecord | backend/server.js:75-81 | a falsy body gives exactly `{ts, service: 'frontend', via: 'client-log'}`; the body's keys override the three defaults and are otherwise copied verbatim; the defaults keep the first three places in creation order |
| Server.PostClientLog | backend/server.js:74-85 | `/client-log` always answers 204 with no content, after one local write and one dispatch of the merged record |
| Server.GetItems | backend/server.js:88-97 | success answers 200 with the store's items and logs `items_fetched` with `count` equal to their number; failure answers 500 `Server error` and logs `items_fetch_error` with the error message |
| Server.PostItem | backend/server.js:99-111 | success answers 201 with the saved item and logs `item_created` with its id and name; failure answers 400 `Error adding item` and logs `item_create_error` with the error message |
| Server.ErrorDetailStaysInLog | backend/server.js:93-96 | a store error's message is in the log record but does not influence the client response |
| Server.Serve | backend/server.js:32-111 | the routes: `/health` answers 200 `ok` and logs nothing; `/client-log`, `GET /api/items` and `POST /api/items` are answered by their own handlers, response and trace alike, so each writes and dispatches exactly its own one record; `/client-log` answers 204, the item routes answer 200/500 and 201/400 by the store's outcome |
| Server.HandleRequest | backend/server.js:32-71 | `/health`, registered before the middleware, logs nothing; the response is the route's response; any other request writes the route's own record first and then exactly one request record, whose status is the response's final status and whose duration is finish minus start; every record is dispatched right after it is written, and nothing else is emitted |
| Server.ConnectionLog | backend/server.js:38-46 | on connection the logged `uri` is the redacted connection string; on failure the error line and a `mongodb_connection_error` record carry the error message; in both cases one text line and one record, nothing else |
| Server.ListenLog | backend/server.js:113-116 | on listen the text line `Backend server running on port 3000`, then one `server_started` record with `port` 3000, and nothing else |
| Config.MongoUri | backend/server.js:35 | the connection string is `MONGO_URI` when set to a non-empty value, else `mongodb://localhost:27017/testdb`; never empty |
| Config.LogstashUrl | backend/server.js:11 | the collector address is `LOGSTASH_URL` when set to a non-empty value, else `http://logstash:5000`; never empty |
| Values.Decimal | backend/server.js:114 | the spelling of a number in a template string: decimal digits only, no leading zero, and it reads back as the number |
| Redaction.FindFrom | backend/server.js:41 | the engine's search from a start position finds the leftmost match at or after it, and the longest one at that start, or reports that none exists |
| Redaction.Redact | backend/server.js:41 | without a match the string is unchanged; otherwise the prefix before the first `//` that has an `@` later on its line and the suffix after the last such `@` are kept, and the middle becomes the mask |
| Redaction.UserinfoMasked | backend/server.js:41 | for `scheme://userinfo@rest` with a slash-free scheme, one-line user information and no `@` in the rest, exactly the user information is masked |
| Redaction.MaskIsChosen | backend/server.js:41 | after the rewrite, the inserted mask is the match the engine chooses |
| Redaction.RedactIdempotent | backend/server.js:41 | redacting an already redacted string leaves it unchanged |

## Left out

- Express set-up, JSON body parsing, CORS and route matching (lines 1-7): framework plumbing. The `Route` datatype stands for the route Express matched for the request's `verb` and `path`; the model does not check that the two agree, and unmatched routes (a 404, which does get a request record) are not modelled.
- Mongoose connection, schema, `find().sort()` and `save()` (lines 38-53, 90, 100-104): a foreign library. Their answers are `Result` inputs, and the newest-first order is whatever the store returns.
- Reading `req.body.name` at line 101 happens before the `try`, so a missing body would fail outside the route's own error handling. This is not modelled because the store's answer is an input.
- `fetch` in `sendToLogstash` (lines 10-18): network I/O that is fire-and-forget with errors swallowed. It appears only as a `Dispatch` trace entry, with no delivery guarantee.
- `Date.now()` and `toISOString()`: clock readings are parameters, and durations may be negative if the clock steps back.
- `JSON.stringify`: records stay abstract property lists. The model does not cover how undefined values are dropped or how integer-like keys are enumerated first, and it does not cover serialisation failures. The same goes for an exception a failing `jlog` or `res.json` would raise inside a route's `try`.
- `Values.OwnProps`: numbers are integers (no NaN, -0 or fractions). Strings are sequences of Unicode scalar values rather than UTF-16 code units, so spreading a string with astral characters gives fewer index keys than JavaScript does.
- Requests whose connection aborts before the response finishes emit no request record. This model covers finished responses only.
- Requests answered before the request-timing middleware emit no request record either, and are not modelled: a body `express.json()` rejects (malformed JSON answers 400, an oversize body 413) skips the middleware on its way to the error handler, and `cors()` answers `OPTIONS` preflights with 204 itself.
- `console.error('MongoDB Connection Error:', err)` prints the whole error. The model records the error's message in its place.
- `Objects.Assign`: JavaScript enumerates integer-like keys (`"0"`, `"1"`, ...) first, in ascending order, and only then the other keys in creation order. The model states creation order, so "a new key is created last" is not the enumeration order for such keys.
- `Objects.Spread`: for the same reason, the target's keys are a prefix of the creation order, not of the enumeration order, when the source brings integer-like keys.
- `Objects.SpreadKeyOrder`: states creation order. Integer-like keys come first in enumeration order, so, for example, `{...{a: 1}, ...{"0": 2}}` enumerates `"0"` before `a`.
- `Server.ClientLogRecord`: the three defaults are first in creation order. A body with integer-like keys, such as the array `[1]`, enumerates `"0"` before `ts`, `service` and `via`.
- frontend/src/main.js is not part of this model: it mounts the user interface and has no logic.

=== FILE: config.dfy ===
/** Process configuration: environment variables with their fallbacks, and the fixed port. */
module Config {

  /** The process environment, `process.env`, as a finite map from variable name to value. */
  type Env = map<string, string>

  const Port: nat := 3000
  const DefaultMongoUri: string := "mongodb://localhost:27017/testdb"
  const DefaultLogstashUrl: string := "http://logstash:5000"

  /** `process.env[name] || fallback`: an unset or empty variable falls back. */
  function EnvOr(env: Env, name: string, fallback: string): string
  {
    if name in env && env[name] != "" then env[name] else fallback
  }

  /** The Mongo connection string: `MONGO_URI` when it is set to a non-empty value, else the
      local default. Never empty. */
  function MongoUri(env: Env): (r: string)
    ensures r != ""
    ensures "MONGO_URI" in env && env["MONGO_URI"] != "" ==> r == env["MONGO_URI"]
    ensures "MONGO_URI" !in env || env["MONGO_URI"] == "" ==> r == DefaultMongoUri
  {
    EnvOr(env, "MONGO_URI", DefaultMongoUri)
  }

  /** The collector address: `LOGSTASH_URL` when it is set to a non-empty value, else the
      default. Never empty. */
  function LogstashUrl(env: Env): (r: string)
    ensures r != ""
    ensures "LOGSTASH_URL" in env && env["LOGSTASH_URL"] != "" ==> r == env["LOGSTASH_URL"]
    ensures "LOGSTASH_URL" !in env || env["LOGSTASH_URL"] == "" ==> r == DefaultLogstashUrl
  {
    EnvOr(env, "LOGSTASH_URL", DefaultLogstashUrl)
  }
}

=== FILE: emission.dfy ===
/** What the server writes and sends: each output step is an entry of an append-only trace. */
module Emission {
  import opened Objects
  import Config

  datatype Entry =
    /** `console.log` of a plain text line. */
    | Text(line: string)
    /** `console.error(prefix, err)`; `detail` stands for the error as printed. */
    | ErrorText(prefix: string, detail: string)
    /** `console.log(JSON.stringify(record))`: one record on the local output. */
    | Local(record: Object)
    /** `sendToLogstash(record)`: a POST of the record to the collector at `url`, handed to
        `fetch` and never awaited; its delivery and any failure are not observable. */
    | Dispatch(url: string, record: Object)

  type Trace = seq<Entry>

  /** The records written to local output, in order. */
  function Written(t: Trace): seq<Object>
  {
    if t == [] then []
    else if t[0].Local? then [t[0].record] + Written(t[1..])
    else Written(t[1..])
  }

  /** The records handed to the collector, in order. */
  function Dispatched(t: Trace): seq<Object>
  {
    if t == [] then []
    else if t[0].Dispatch? then [t[0].record] + Dispatched(t[1..])
    else Dispatched(t[1..])
  }

  /** Every local record is immediately followed by the dispatch of that same record, and
      there is no other dispatch. */
  predicate Paired(t: Trace)
    decreases |t|
  {
    if t == [] then true
    else match t[0]
      case Local(rec) => |t| >= 2 && t[1].Dispatch? && t[1].record == rec && Paired(t[2..])
      case Dispatch(_, _) => false
      case _ => Paired(t[1..])
  }

  /** One emission of a record: written locally first, then dispatched to the collector
      named by `LOGSTASH_URL` (or its fallback). */
  function Emit(env: Config.Env, rec: Object): (t: Trace)
    ensures Paired(t) && |t| == 2
    ensures Written(t) == [rec] && Dispatched(t) == [rec]
    ensures forall e :: e in t && e.Dispatch? ==> e.url == Config.LogstashUrl(env)
  {
    var t := [Local(rec), Dispatch(Config.LogstashUrl(env), rec)];
    assert t[1..][1..] == [] && t[2..] == [];
    assert Dispatched(t[1..][1..]) == [] && Written(t[1..][1..]) == [];
    assert Written(t[1..]) == [] && Dispatched(t[1..]) == [rec];
    t
  }

  lemma {:induction false} WrittenAppend(a: Trace, b: Trace)
    ensures Written(a + b) == Written(a) + Written(b)
    ensures Dispatched(a + b) == Dispatched(a) + Dispatched(b)
  {
    if a == [] {
      assert a + b == b;
    } else {
      assert (a + b)[0] == a[0] && (a + b)[1..] == a[1..] + b;
      WrittenAppend(a[1..], b);
    }
  }

  /** Traces of emissions compose: concatenating two paired traces gives a paired trace. */
  lemma {:induction false} PairedAppend(a: Trace, b: Trace)
    requires Paired(a) && Paired(b)
    ensures Paired(a + b)
    decreases |a|
  {
    if a == [] {
      assert a + b == b;
    } else if a[0].Local? {
      assert (a + b)[0] == a[0] && (a + b)[1] == a[1] && (a + b)[2..] == a[2..] + b;
      PairedAppend(a[2..], b);
    } else {
      assert (a + b)[0] == a[0] && (a + b)[1..] == a[1..] + b;
      PairedAppend(a[1..], b);
    }
  }

  /** In a paired trace the collector receives exactly the records written locally, in the
      same order. */
  lemma {:induction false} PairedDispatchesWritten(t: Trace)
    requires Paired(t)
    ensures Dispatched(t) == Written(t)
    decreases |t|
  {
    if t != [] {
      if t[0].Local? {
        assert t[1..][1..] == t[2..];
        PairedDispatchesWritten(t[2..]);
      } else {
        PairedDispatchesWritten(t[1..]);
      }
    }
  }
}

=== FILE: objects.dfy ===
/** JavaScript objects as ordered property lists, and the object-spread merge the server uses
    to build every log record. An object literal `{a, b, ...src}` defines `a` and `b`, then copies
    each property of `src` in turn: a key already present keeps its position and takes the new
    value, a new key is appended. So later values win, no key is dropped, and overridden keys
    keep their original place. */
module Objects {
  import opened Wrappers
  import opened Values

  /** An object's own properties in insertion order. */
  type Object = seq<Prop>

  function KeyList(o: seq<Prop>): seq<string>
  {
    if o == [] then [] else [o[0].key] + KeyList(o[1..])
  }

  function Keys(o: seq<Prop>): set<string>
  {
    if o == [] then {} else {o[0].key} + Keys(o[1..])
  }

  /** A well-formed object: no key occurs twice. Every JavaScript object satisfies this. */
  predicate IsObject(o: seq<Prop>)
  {
    o == [] || (o[0].key !in Keys(o[1..]) && IsObject(o[1..]))
  }

  /** Property lookup `o[k]`: `None` stands for a key the object does not have. */
  function Get(o: seq<Prop>, k: string): Option<Value>
  {
    if o == [] then None
    else if o[0].key == k then Some(o[0].val)
    else Get(o[1..], k)
  }

  /** The value the last property with key `k` carries: the one a left-to-right copy keeps. */
  function Last(src: seq<Prop>, k: string): (v: Value)
    requires k in Keys(src)
    ensures Prop(k, v) in src
  {
    if k in Keys(src[1..]) then Last(src[1..], k) else src[0].val
  }

  /** The keys of `src` not in `seen`, each once, in order of first occurrence. */
  function NewKeys(seen: set<string>, src: seq<Prop>): seq<string>
    decreases |src|
  {
    if src == [] then []
    else if src[0].key in seen then NewKeys(seen, src[1..])
    else [src[0].key] + NewKeys(seen + {src[0].key}, src[1..])
  }

  lemma {:induction false} KeyListAppend(o: seq<Prop>, p: Prop)
    ensures KeyList(o + [p]) == KeyList(o) + [p.key]
  {
    if o != [] {
      assert (o + [p])[1..] == o[1..] + [p];
      KeyListAppend(o[1..], p);
    }
  }

  /** One property definition `o[k] = v` on a plain object (CreateDataProperty). */
  function Assign(o: Object, k: string, v: Value): (r: Object)
    ensures Keys(r) == Keys(o) + {k}
    ensures Get(r, k) == Some(v)
    ensures forall k' :: k' != k ==> Get(r, k') == Get(o, k')
    ensures k in Keys(o) ==> KeyList(r) == KeyList(o)
    ensures k !in Keys(o) ==> r == o + [Prop(k, v)]
    ensures IsObject(o) ==> IsObject(r)
  {
    if o == [] then [Prop(k, v)]
    else if o[0].key == k then [Prop(k, v)] + o[1..]
    else
      var rest := Assign(o[1..], k, v);
      assert ([o[0]] + rest)[1..] == rest;
      assert k !in Keys(o) ==> [o[0]] + (o[1..] + [Prop(k, v)]) == o + [Prop(k, v)];
      [o[0]] + rest
  }

  /** `{...o, ...src}` where `o` is the object built so far: copy every property of `src`
      onto `o`, left to right. */
  function Spread(o: Object, src: seq<Prop>): (r: Object)
    ensures Keys(r) == Keys(o) + Keys(src)
    ensures forall k :: Get(r, k) == if k in Keys(src) then Some(Last(src, k)) else Get(o, k)
    ensures KeyList(o) <= KeyList(r)
    ensures IsObject(o) ==> IsObject(r)
    decreases |src|
  {
    if src == [] then o
    else
      var o' := Assign(o, src[0].key, src[0].val);
      KeyListAppend(o, src[0]);
      assert Keys(src) == {src[0].key} + Keys(src[1..]);
      var r := Spread(o', src[1..]);
      assert forall k :: k in Keys(src[1..]) ==> Last(src, k) == Last(src[1..], k);
      assert forall k :: k in Keys(src) && k !in Keys(src[1..]) ==> Last(src, k) == src[0].val;
      r
  }

  /** Key order after a spread: the keys of `o` in their original positions, then the keys
      `src` adds, in the order they first occur in `src`. */
  lemma {:induction false} SpreadKeyOrder(o: Object, src: seq<Prop>)
    ensures KeyList(Spread(o, src)) == KeyList(o) + NewKeys(Keys(o), src)
    decreases |src|
  {
    if src != [] {
      var k := src[0].key;
      var o' := Assign(o, k, src[0].val);
      assert Spread(o, src) == Spread(o', src[1..]);
      SpreadKeyOrder(o', src[1..]);
      if k in Keys(o) {
        assert Keys(o') == Keys(o) && KeyList(o') == KeyList(o);
        assert NewKeys(Keys(o), src) == NewKeys(Keys(o), src[1..]);
      } else {
        KeyListAppend(o, src[0]);
        assert KeyList(o') == KeyList(o) + [k];
        assert NewKeys(Keys(o), src) == [k] + NewKeys(Keys(o'), src[1..]);
        assert KeyList(o') + NewKeys(Keys(o'), src[1..]) == KeyList(o) + NewKeys(Keys(o), src);
      }
    }
  }

  /** In a well-formed object the last and the only property with a key coincide. */
  lemma {:induction false} LastOfObject(o: Object)
    ensures IsObject(o) ==> forall k :: k in Keys(o) ==> Get(o, k) == Some(Last(o, k))
  {
    if o != [] {
      LastOfObject(o[1..]);
    }
  }

  /** Keys, key order, lookup and well-formedness read off by position; used for literals. */
  lemma {:induction false} KeyListByPosition(o: seq<Prop>)
    ensures |KeyList(o)| == |o| && forall i :: 0 <= i < |o| ==> KeyList(o)[i] == o[i].key
  {
    if o != [] {
      KeyListByPosition(o[1..]);
    }
  }

  lemma {:induction false} KeysByPosition(o: seq<Prop>)
    ensures forall k :: k in Keys(o) <==> k in KeyList(o)
  {
    if o != [] {
      KeysByPosition(o[1..]);
    }
  }

  lemma {:induction false} GetByPosition(o: seq<Prop>, i: nat)
    requires i < |o| && forall j :: 0 <= j < i ==> o[j].key != o[i].key
    ensures Get(o, o[i].key) == Some(o[i].val)
  {
    if i > 0 {
      GetByPosition(o[1..], i - 1);
    }
  }

  lemma {:induction false} IsObjectByPosition(o: seq<Prop>)
    requires forall i, j :: 0 <= i < j < |o| ==> o[i].key != o[j].key
    ensures IsObject(o)
  {
    if o != [] {
      IsObjectByPosition(o[1..]);
      KeysByPosition(o[1..]);
      KeyListByPosition(o[1..]);
    }
  }

  /** What `...` copies out of an array or a string is itself an object: the index keys are
      distinct, so index `i` reads back element `i`. */
  lemma IndexKeysDistinct(v: Value)
    ensures v.Arr? || v.Str? ==> IsObject(OwnProps(v))
    ensures v.Arr? ==> forall i :: 0 <= i < |v.elems| ==> Get(OwnProps(v), Decimal(i)) == Some(v.elems[i])
    ensures v.Str? ==> forall i :: 0 <= i < |v.s| ==> Get(OwnProps(v), Decimal(i)) == Some(Str([v.s[i]]))
  {
    if v.Arr? || v.Str? {
      var ps := OwnProps(v);
      forall i, j | 0 <= i < j < |ps|
        ensures ps[i].key != ps[j].key
      {
        assert DigitsValue(ps[i].key) == i && DigitsValue(ps[j].key) == j;
      }
      IsObjectByPosition(ps);
      forall i | 0 <= i < |ps|
        ensures Get(ps, Decimal(i)) == Some(ps[i].val)
      {
        GetByPosition(ps, i);
      }
    }
  }

  /** A three-property literal `{a, b, c}` with distinct keys. */
  lemma Triple(a: Prop, b: Prop, c: Prop)
    requires a.key != b.key && a.key != c.key && b.key != c.key
    ensures KeyList([a, b, c]) == [a.key, b.key, c.key]
    ensures Keys([a, b, c]) == {a.key, b.key, c.key}
    ensures IsObject([a, b, c])
    ensures Get([a, b, c], a.key) == Some(a.val)
    ensures Get([a, b, c], b.key) == Some(b.val)
    ensures Get([a, b, c], c.key) == Some(c.val)
  {
    var o1, o2, o3 := [a, b, c], [b, c], [c];
    assert o3[0] == c && o3[1..] == [];
    assert Keys(o3) == {c.key} + Keys(o3[1..]) && KeyList(o3) == [c.key] + KeyList(o3[1..]);
    assert o2[0] == b && o2[1..] == o3;
    assert Keys(o2) == {b.key} + Keys(o3) && KeyList(o2) == [b.key] + KeyList(o3);
    assert o1[0] == a && o1[1..] == o2;
    assert Keys(o1) == {a.key} + Keys(o2) && KeyList(o1) == [a.key] + KeyList(o2);
    assert Get(o2, c.key) == Get(o3, c.key);
    assert IsObject(o3);
    assert b.key !in Keys(o3);
    assert IsObject(o2);
    assert a.key !in Keys(o2);
    assert IsObject(o1);
  }
}

=== FILE: redaction.dfy ===
/** Masking the credentials of the Mongo connection string before it is logged:
    `uri.replace(/\/\/.*@/, Mask)`. A non-global `replace` rewrites only the first match
    the regular-expression engine reports: the engine tries start positions left to right, and
    at each one the greedy `.*` first runs to the end of the line and then backs off to the last
    `@` (in ECMAScript, `.` matches any character except a line terminator). */
module Redaction {
  import opened Wrappers

  const Mask: string := "//*****@"

  /** The line terminators of ECMAScript: LF, CR, LINE SEPARATOR, PARAGRAPH SEPARATOR. */
  predicate IsLineTerminator(c: char)
  {
    c == '\n' || c == '\r' || c == '\U{2028}' || c == '\U{2029}'
  }

  /** `s[lo..hi]` holds no line terminator, so `.*` can match all of it. */
  predicate SameLine(s: string, lo: int, hi: int)
    requires 0 <= lo <= hi <= |s|
  {
    forall k :: lo <= k < hi ==> !IsLineTerminator(s[k])
  }

  /** `/\/\/.*@/` matches `s[i..j+1]`. */
  predicate MatchAt(s: string, i: int, j: int)
  {
    && 0 <= i && i + 2 <= j < |s|
    && s[i] == '/' && s[i + 1] == '/' && s[j] == '@'
    && SameLine(s, i + 2, j)
  }

  ghost predicate NoMatch(s: string)
  {
    forall i, j :: !MatchAt(s, i, j)
  }

  /** The match a non-global `replace` rewrites: the leftmost start, and at that start the
      longest match. */
  ghost predicate Chosen(s: string, i: int, j: int)
  {
    && MatchAt(s, i, j)
    && (forall i', j' :: MatchAt(s, i', j') ==> i <= i')
    && (forall j' :: MatchAt(s, i, j') ==> j' <= j)
  }

  /** Where the greedy `.*` starting at `from` stops: the first line terminator, or the end. */
  function LineEnd(s: string, from: nat): (e: nat)
    requires from <= |s|
    ensures from <= e <= |s| && SameLine(s, from, e)
    ensures e < |s| ==> IsLineTerminator(s[e])
    decreases |s| - from
  {
    if from == |s| || IsLineTerminator(s[from]) then from else LineEnd(s, from + 1)
  }

  /** Backtracking from `hi` down to `lo` for the `@` that ends the match. */
  function LastAt(s: string, lo: nat, hi: nat): (r: Option<nat>)
    requires lo <= hi <= |s|
    ensures r.Some? ==> lo <= r.value < hi && s[r.value] == '@'
    ensures r.Some? ==> forall k :: r.value < k < hi ==> s[k] != '@'
    ensures r.None? ==> forall k :: lo <= k < hi ==> s[k] != '@'
    decreases hi
  {
    if hi == lo then None
    else if s[hi - 1] == '@' then Some(hi - 1)
    else LastAt(s, lo, hi - 1)
  }

  /** The engine's search from start position `i` on: the first start that matches, with the
      longest match there. */
  function FindFrom(s: string, i: nat): (r: Option<(nat, nat)>)
    requires i <= |s|
    ensures r.None? ==> forall a, b :: MatchAt(s, a, b) ==> a < i
    ensures r.Some? ==> i <= r.value.0 && MatchAt(s, r.value.0, r.value.1)
    ensures r.Some? ==> forall a, b :: MatchAt(s, a, b) && i <= a ==> r.value.0 <= a
    ensures r.Some? ==> forall b :: MatchAt(s, r.value.0, b) ==> b <= r.value.1
    decreases |s| - i
  {
    if i + 2 >= |s| then None
    else if s[i] == '/' && s[i + 1] == '/' then
      var e := LineEnd(s, i + 2);
      match LastAt(s, i + 2, e)
      case Some(j) => Some((i, j))
      case None => FindFrom(s, i + 1)
    else FindFrom(s, i + 1)
  }

  /** `uri.replace(/\/\/.*@/, Mask)`: with no match the string is returned unchanged;
      otherwise everything before the first `//` that has an `@` after it on the same line, and
      everything after the last such `@`, is kept, and what lies between becomes the mask. */
  function Redact(s: string): (r: string)
    ensures NoMatch(s) ==> r == s
    ensures !NoMatch(s) ==> exists i, j :: Chosen(s, i, j)
    ensures forall i, j :: Chosen(s, i, j) ==> r == s[..i] + Mask + s[j + 1..]
  {
    match FindFrom(s, 0)
    case None => s
    case Some((i, j)) =>
      assert Chosen(s, i, j);
      s[..i] + Mask + s[j + 1..]
  }

  /** The chosen match of a string that has one, and the rewrite it yields. */
  lemma ChosenMatch(s: string) returns (i: int, j: int)
    requires !NoMatch(s)
    ensures Chosen(s, i, j) && Redact(s) == s[..i] + Mask + s[j + 1..]
  {
    var r := Redact(s);
    i, j :| Chosen(s, i, j);
  }

  /** In a connection string of the usual shape `scheme://userinfo@rest`, the user information
      and nothing else is masked, provided the scheme has no `/`, the user information stays on
      one line, and the rest has no `@`. */
  lemma UserinfoMasked(scheme: string, userinfo: string, rest: string)
    requires '/' !in scheme && '@' !in rest
    requires forall c :: c in userinfo ==> !IsLineTerminator(c)
    ensures Redact(scheme + "//" + userinfo + "@" + rest) == scheme + Mask + rest
  {
    var s := scheme + "//" + userinfo + "@" + rest;
    var i, j := |scheme|, |scheme| + 2 + |userinfo|;
    assert s[i] == '/' && s[i + 1] == '/' && s[j] == '@';
    forall k | i + 2 <= k < j
      ensures !IsLineTerminator(s[k])
    {
      assert s[k] == userinfo[k - i - 2];
    }
    assert MatchAt(s, i, j);
    forall a | 0 <= a < i
      ensures s[a] != '/'
    {
      assert s[a] == scheme[a];
    }
    forall b | j < b < |s|
      ensures s[b] != '@'
    {
      assert s[b] == rest[b - j - 1];
    }
    assert Chosen(s, i, j);
    assert s[..i] == scheme && s[j + 1..] == rest;
  }

  /** Where the characters of `s[..i] + Mask + s[j + 1..]` come from. */
  lemma RewriteIndex(s: string, i: int, j: int, k: int)
    requires 0 <= i <= j < |s| && 0 <= k < |s[..i] + Mask + s[j + 1..]|
    ensures k < i ==> (s[..i] + Mask + s[j + 1..])[k] == s[k]
    ensures i <= k < i + 8 ==> (s[..i] + Mask + s[j + 1..])[k] == Mask[k - i]
    ensures i + 8 <= k ==> (s[..i] + Mask + s[j + 1..])[k] == s[k - i - 7 + j]
  {
  }

  /** After the rewrite, the mask itself is the match the engine chooses. */
  lemma {:induction false} MaskIsChosen(s: string, i: int, j: int)
    requires Chosen(s, i, j)
    ensures Chosen(s[..i] + Mask + s[j + 1..], i, i + 7)
  {
    var r := s[..i] + Mask + s[j + 1..];
    assert |r| == i + 8 + |s| - j - 1;
    forall k | 0 <= k < |r|
      ensures k < i ==> r[k] == s[k]
      ensures i <= k < i + 8 ==> r[k] == Mask[k - i]
      ensures i + 8 <= k ==> r[k] == s[k - i - 7 + j]
    {
      RewriteIndex(s, i, j, k);
    }
    assert MatchAt(r, i, i + 7);
    forall a, b | MatchAt(r, a, b)
      ensures i <= a
    {
      if a < i {
        assert s[a] == '/' && s[a + 1] == '/';
        if b < i {
          assert MatchAt(s, a, b);
        } else {
          assert forall k :: a + 2 <= k < i ==> !IsLineTerminator(s[k]);
          assert MatchAt(s, a, j);
        }
      }
    }
    forall b | MatchAt(r, i, b)
      ensures b <= i + 7
    {
      if b > i + 7 {
        var b' := b - i - 7 + j;
        assert s[b'] == '@';
        forall k | j < k < b'
          ensures !IsLineTerminator(s[k])
        {
          assert r[k + i + 7 - j] == s[k];
        }
        assert MatchAt(s, i, b');
      }
    }
  }

  /** Redacting an already redacted string changes nothing. */
  lemma {:induction false} RedactIdempotent(s: string)
    ensures Redact(Redact(s)) == Redact(s)
  {
    if !NoMatch(s) {
      var i, j := ChosenMatch(s);
      var r := Redact(s);
      MaskIsChosen(s, i, j);
      assert Redact(r) == r[..i] + Mask + r[i + 8..];
      assert r[..i] == s[..i] && r[i + 8..] == s[j + 1..];
    }
  }
}

=== FILE: server.dfy ===
/** The backend's request handling and logging: the `jlog` helper, the request-timing
    middleware, the `/client-log` ingestion route, the item routes, and the start-up logs.
    Clock readings, ISO timestamps and the document store's answers are parameters. */
module Server {
  import opened Wrappers
  import opened Values
  import opened Objects
  import opened Emission
  import Config
  import Redaction

  /** A stored item, as the store returns it; `id` is the identifier's JSON form. */
  datatype Item = Item(id: string, name: string, createdAt: string)

  datatype Body =
    | NoContent
    | Plain(text: string)
    | Items(items: seq<Item>)
    | Created(item: Item)
    | Message(message: string)

  datatype Response = Response(status: int, body: Body)

  /** A handler's answer together with everything it wrote and sent, in order. */
  datatype Handled = Handled(response: Response, trace: Trace)

  /** The routes the server serves; each carries what the handler receives from outside:
      the parsed body, or the document store's answer. */
  datatype Route =
    | HealthCheck
    | ClientLog(body: Value)
    | ListItems(found: Result<seq<Item>, string>)
    | CreateItem(saved: Result<Item, string>)

  /** The clock readings of one request: the middleware's start and finish times in
      milliseconds, and the ISO timestamps the handler and the finish hook take. */
  datatype Clock = Clock(startMs: int, handlerTs: string, finishTs: string, finishMs: int)

  /** `{ts, service: 'backend', event, ...meta}`: the record `jlog` builds. */
  function JLogRecord(ts: string, event: string, meta: Object): (p: Object)
    ensures Keys(p) == {"ts", "service", "event"} + Keys(meta)
    ensures forall k :: k in Keys(meta) ==> Get(p, k) == Some(Last(meta, k))
    ensures IsObject(meta) ==> forall k :: k in Keys(meta) ==> Get(p, k) == Get(meta, k)
    ensures "ts" !in Keys(meta) ==> Get(p, "ts") == Some(Str(ts))
    ensures "service" !in Keys(meta) ==> Get(p, "service") == Some(Str("backend"))
    ensures "event" !in Keys(meta) ==> Get(p, "event") == Some(Str(event))
    ensures KeyList(p) == ["ts", "service", "event"] + NewKeys({"ts", "service", "event"}, meta)
    ensures IsObject(p)
    ensures meta == [] ==> p == [Prop("ts", Str(ts)), Prop("service", Str("backend")), Prop("event", Str(event))]
  {
    var base := [Prop("ts", Str(ts)), Prop("service", Str("backend")), Prop("event", Str(event))];
    Triple(base[0], base[1], base[2]);
    LastOfObject(meta);
    SpreadKeyOrder(base, meta);
    Spread(base, meta)
  }

  /** `jlog(event, meta)`: one record, written locally and then dispatched. */
  function JLog(env: Config.Env, ts: string, event: string, meta: Object): (t: Trace)
    ensures Paired(t) && |t| == 2
    ensures Written(t) == [JLogRecord(ts, event, meta)] && Dispatched(t) == Written(t)
  {
    Emit(env, JLogRecord(ts, event, meta))
  }

  const RequestKeys: seq<string> := ["ts", "service", "event", "method", "path", "status", "duration_ms"]

  /** The record the request-timing middleware emits when a response has finished. */
  function RequestRecord(ts: string, verb: string, path: string, status: int, startMs: int, finishMs: int): (rec: Object)
    ensures KeyList(rec) == RequestKeys && IsObject(rec)
    ensures forall k :: k in Keys(rec) <==> k in RequestKeys
    ensures "level" !in Keys(rec)
    ensures Get(rec, "ts") == Some(Str(ts))
    ensures Get(rec, "service") == Some(Str("backend")) && Get(rec, "event") == Some(Str("http_request"))
    ensures Get(rec, "method") == Some(Str(verb)) && Get(rec, "path") == Some(Str(path))
    ensures Get(rec, "status") == Some(Num(status))
    ensures Get(rec, "duration_ms") == Some(Num(finishMs - startMs))
  {
    var rec :=
      [ Prop("ts", Str(ts)), Prop("service", Str("backend")), Prop("event", Str("http_request")),
        Prop("method", Str(verb)), Prop("path", Str(path)), Prop("status", Num(status)),
        Prop("duration_ms", Num(finishMs - startMs)) ];
    RequestKeysInOrder(rec);
    RequestKeysDistinct(rec);
    RequestValues(rec);
    rec
  }

  lemma RequestKeysInOrder(rec: Object)
    requires |rec| == 7 && forall i :: 0 <= i < 7 ==> rec[i].key == RequestKeys[i]
    ensures KeyList(rec) == RequestKeys
    ensures forall k :: k in Keys(rec) <==> k in RequestKeys
  {
    KeyListByPosition(rec);
    assert KeyList(rec) == RequestKeys;
    KeysByPosition(rec);
  }

  lemma RequestKeyNamesDistinct()
    ensures forall i, j :: 0 <= i < j < |RequestKeys| ==> RequestKeys[i] != RequestKeys[j]
  {
  }

  lemma RequestKeysDistinct(rec: Object)
    requires |rec| == 7 && forall i :: 0 <= i < 7 ==> rec[i].key == RequestKeys[i]
    ensures IsObject(rec)
  {
    RequestKeyNamesDistinct();
    IsObjectByPosition(rec);
  }

  lemma RequestValues(rec: Object)
    requires |rec| == 7 && forall i :: 0 <= i < 7 ==> rec[i].key == RequestKeys[i]
    ensures Get(rec, "ts") == Some(rec[0].val)
    ensures Get(rec, "service") == Some(rec[1].val) && Get(rec, "event") == Some(rec[2].val)
    ensures Get(rec, "method") == Some(rec[3].val) && Get(rec, "path") == Some(rec[4].val)
    ensures Get(rec, "status") == Some(rec[5].val) && Get(rec, "duration_ms") == Some(rec[6].val)
  {
    assert forall i, j :: 0 <= i < j < |rec| ==> rec[i].key != rec[j].key;
    GetByPosition(rec, 0);
    GetByPosition(rec, 1);
    GetByPosition(rec, 2);
    GetByPosition(rec, 3);
    GetByPosition(rec, 4);
    GetByPosition(rec, 5);
    GetByPosition(rec, 6);
  }

  /** The middleware's `finish` hook: exactly one request record, written then dispatched. */
  function OnFinish(env: Config.Env, ts: string, verb: string, path: string, status: int, startMs: int, finishMs: int): (t: Trace)
    ensures Paired(t) && Dispatched(t) == Written(t) && |t| == 2
    ensures Written(t) == [RequestRecord(ts, verb, path, status, startMs, finishMs)]
  {
    Emit(env, RequestRecord(ts, verb, path, status, startMs, finishMs))
  }

  /** `{ts, service: 'frontend', via: 'client-log', ...(req.body || {})}`. */
  function ClientLogRecord(ts: string, body: Value): (r: Object)
    ensures !Truthy(body) ==> r == [Prop("ts", Str(ts)), Prop("service", Str("frontend")), Prop("via", Str("client-log"))]
    ensures Keys(r) == {"ts", "service", "via"} + Keys(OwnProps(body))
    ensures forall k :: k in Keys(OwnProps(body)) ==> Get(r, k) == Some(Last(OwnProps(body), k))
    ensures "ts" !in Keys(OwnProps(body)) ==> Get(r, "ts") == Some(Str(ts))
    ensures "service" !in Keys(OwnProps(body)) ==> Get(r, "service") == Some(Str("frontend"))
    ensures "via" !in Keys(OwnProps(body)) ==> Get(r, "via") == Some(Str("client-log"))
    ensures KeyList(r) == ["ts", "service", "via"] + NewKeys({"ts", "service", "via"}, OwnProps(body))
    ensures IsObject(r)
  {
    var base := [Prop("ts", Str(ts)), Prop("service", Str("frontend")), Prop("via", Str("client-log"))];
    Triple(base[0], base[1], base[2]);
    var b := if Truthy(body) then body else Obj([]);
    assert OwnProps(b) == OwnProps(body);
    SpreadKeyOrder(base, OwnProps(b));
    Spread(base, OwnProps(b))
  }

  /** `POST /client-log`: re-emit the client's record and answer 204 whatever it holds. */
  function PostClientLog(env: Config.Env, ts: string, body: Value): (h: Handled)
    ensures h.response == Response(204, NoContent)
    ensures Paired(h.trace) && Written(h.trace) == [ClientLogRecord(ts, body)] && |h.trace| == 2
  {
    Handled(Response(204, NoContent), Emit(env, ClientLogRecord(ts, body)))
  }

  /** `GET /api/items`: the items, newest first as the store ordered them, or a generic 500. */
  function GetItems(env: Config.Env, ts: string, found: Result<seq<Item>, string>): (h: Handled)
    ensures Paired(h.trace) && |Written(h.trace)| == 1 && |h.trace| == 2
    ensures found.Success? ==> h.response == Response(200, Items(found.value))
    ensures found.Success? ==> Get(Written(h.trace)[0], "event") == Some(Str("items_fetched"))
    ensures found.Success? ==> Get(Written(h.trace)[0], "count") == Some(Num(|found.value|))
    ensures found.Failure? ==> h.response == Response(500, Message("Server error"))
    ensures found.Failure? ==> Get(Written(h.trace)[0], "event") == Some(Str("items_fetch_error"))
    ensures found.Failure? ==> Get(Written(h.trace)[0], "error") == Some(Str(found.error))
  {
    match found
    case Success(items) =>
      Handled(Response(200, Items(items)), JLog(env, ts, "items_fetched", [Prop("count", Num(|items|))]))
    case Failure(message) =>
      Handled(Response(500, Message("Server error")), JLog(env, ts, "items_fetch_error", [Prop("error", Str(message))]))
  }

  /** `POST /api/items`: the created item with 201, or a generic 400. */
  function PostItem(env: Config.Env, ts: string, saved: Result<Item, string>): (h: Handled)
    ensures Paired(h.trace) && |Written(h.trace)| == 1 && |h.trace| == 2
    ensures saved.Success? ==> h.response == Response(201, Created(saved.value))
    ensures saved.Success? ==> Get(Written(h.trace)[0], "event") == Some(Str("item_created"))
    ensures saved.Success? ==> Get(Written(h.trace)[0], "id") == Some(Str(saved.value.id))
    ensures saved.Success? ==> Get(Written(h.trace)[0], "name") == Some(Str(saved.value.name))
    ensures saved.Failure? ==> h.response == Response(400, Message("Error adding item"))
    ensures saved.Failure? ==> Get(Written(h.trace)[0], "event") == Some(Str("item_create_error"))
    ensures saved.Failure? ==> Get(Written(h.trace)[0], "error") == Some(Str(saved.error))
  {
    match saved
    case Success(item) =>
      Handled(Response(201, Created(item)), JLog(env, ts, "item_created", [Prop("id", Str(item.id)), Prop("name", Str(item.name))]))
    case Failure(message) =>
      Handled(Response(400, Message("Error adding item")), JLog(env, ts, "item_create_error", [Prop("error", Str(message))]))
  }

  /** A store error's message reaches the log, never the client: two failures that differ
      only in their message get the same response. */
  lemma ErrorDetailStaysInLog(env: Config.Env, ts: string, m1: string, m2: string)
    ensures GetItems(env, ts, Failure(m1)).response == GetItems(env, ts, Failure(m2)).response
    ensures PostItem(env, ts, Failure(m1)).response == PostItem(env, ts, Failure(m2)).response
    ensures Get(Written(GetItems(env, ts, Failure(m1)).trace)[0], "error") == Some(Str(m1))
    ensures Get(Written(PostItem(env, ts, Failure(m1)).trace)[0], "error") == Some(Str(m1))
  {
  }

  /** The route table: `/health` answers `ok` and logs nothing; every other route emits exactly
      one record and answers with the status its outcome calls for. */
  function Serve(env: Config.Env, ts: string, route: Route): (h: Handled)
    ensures Paired(h.trace) && Dispatched(h.trace) == Written(h.trace)
    ensures route.HealthCheck? ==> h.response == Response(200, Plain("ok")) && h.trace == []
    ensures !route.HealthCheck? ==> |Written(h.trace)| == 1
    ensures route.ClientLog? ==> h.response.status == 204
    ensures route.ListItems? ==> h.response.status == if route.found.Success? then 200 else 500
    ensures route.CreateItem? ==> h.response.status == if route.saved.Success? then 201 else 400
    ensures route.ClientLog? ==> h == PostClientLog(env, ts, route.body)
    ensures route.ListItems? ==> h == GetItems(env, ts, route.found)
    ensures route.CreateItem? ==> h == PostItem(env, ts, route.saved)
  {
    match route
    case HealthCheck => Handled(Response(200, Plain("ok")), [])
    case ClientLog(body) =>
      var h := PostClientLog(env, ts, body);
      PairedDispatchesWritten(h.trace);
      h
    case ListItems(found) =>
      var h := GetItems(env, ts, found);
      PairedDispatchesWritten(h.trace);
      h
    case CreateItem(saved) =>
      var h := PostItem(env, ts, saved);
      PairedDispatchesWritten(h.trace);
      h
  }

  /** One request through the application. `/health` is registered before the request-timing
      middleware and does not pass the request on, so it is answered with no record at all.
      Every other route runs behind the middleware: the route's own record, then, once the
      response has finished, exactly one request record carrying the final status. */
  function HandleRequest(env: Config.Env, verb: string, path: string, route: Route, clock: Clock): (h: Handled)
    ensures Paired(h.trace) && Dispatched(h.trace) == Written(h.trace)
    ensures route.HealthCheck? ==> h.response == Response(200, Plain("ok")) && h.trace == []
    ensures !route.HealthCheck? ==> |Written(h.trace)| == 2 && |h.trace| == 4
    ensures !route.HealthCheck? ==> Written(h.trace)[1] == RequestRecord(clock.finishTs, verb, path, h.response.status, clock.startMs, clock.finishMs)
    ensures route.ClientLog? ==> h.response == Response(204, NoContent)
    ensures h.response == Serve(env, clock.handlerTs, route).response
    ensures !route.HealthCheck? ==> Written(h.trace)[0] == Written(Serve(env, clock.handlerTs, route).trace)[0]
  {
    var routed := Serve(env, clock.handlerTs, route);
    if route.HealthCheck? then routed
    else
      var finish := OnFinish(env, clock.finishTs, verb, path, routed.response.status, clock.startMs, clock.finishMs);
      PairedAppend(routed.trace, finish);
      WrittenAppend(routed.trace, finish);
      PairedDispatchesWritten(routed.trace + finish);
      Handled(routed.response, routed.trace + finish)
  }

  /** The connection callbacks: on success a text line and a `mongodb_connected` record whose
      `uri` is the redacted connection string; on failure an error line and a
      `mongodb_connection_error` record carrying the error's message. */
  function ConnectionLog(env: Config.Env, ts: string, connected: Result<(), string>): (t: Trace)
    ensures Paired(t) && |Written(t)| == 1 && |t| == 3
    ensures connected.Success? ==> t[0] == Text("MongoDB Connected...")
    ensures connected.Success? ==> Get(Written(t)[0], "event") == Some(Str("mongodb_connected"))
    ensures connected.Success? ==> Get(Written(t)[0], "uri") == Some(Str(Redaction.Redact(Config.MongoUri(env))))
    ensures connected.Failure? ==> t[0] == ErrorText("MongoDB Connection Error:", connected.error)
    ensures connected.Failure? ==> Get(Written(t)[0], "event") == Some(Str("mongodb_connection_error"))
    ensures connected.Failure? ==> Get(Written(t)[0], "error") == Some(Str(connected.error))
  {
    match connected
    case Success(_) =>
      var t := JLog(env, ts, "mongodb_connected", [Prop("uri", Str(Redaction.Redact(Config.MongoUri(env))))]);
      assert Paired([Text("MongoDB Connected...")] + t);
      WrittenAppend([Text("MongoDB Connected...")], t);
      [Text("MongoDB Connected...")] + t
    case Failure(message) =>
      var t := JLog(env, ts, "mongodb_connection_error", [Prop("error", Str(message))]);
      assert Paired([ErrorText("MongoDB Connection Error:", message)] + t);
      WrittenAppend([ErrorText("MongoDB Connection Error:", message)], t);
      [ErrorText("MongoDB Connection Error:", message)] + t
  }

  /** The port as the start-up line spells it. */
  lemma PortSpelling()
    ensures "Backend server running on port " + Decimal(Config.Port) == "Backend server running on port 3000"
  {
    assert Decimal(3) == "3";
    assert Decimal(30) == "30";
    assert Decimal(300) == "300";
    assert Decimal(3000) == "3000";
  }

  /** The `listen` callback: a text line naming the port, then a `server_started` record. */
  function ListenLog(env: Config.Env, ts: string): (t: Trace)
    ensures Paired(t) && |Written(t)| == 1 && |t| == 3
    ensures t[0] == Text("Backend server running on port 3000")
    ensures Get(Written(t)[0], "event") == Some(Str("server_started"))
    ensures Get(Written(t)[0], "port") == Some(Num(3000))
  {
    PortSpelling();
    var line := "Backend server running on port " + Decimal(Config.Port);
    var t := JLog(env, ts, "server_started", [Prop("port", Num(Config.Port))]);
    assert Paired([Text(line)] + t);
    WrittenAppend([Text(line)], t);
    [Text(line)] + t
  }
}

=== FILE: values.dfy ===
/** JavaScript values as they occur in log records and in parsed JSON request bodies. */
module Values {

  /** A JavaScript value. Numbers are modelled as integers: every number the server itself
      puts in a record (a count, a status code, a duration, a port) is an integer. */
  datatype Value =
    | Undefined
    | Null
    | Bool(b: bool)
    | Num(n: int)
    | Str(s: string)
    | Arr(elems: seq<Value>)
    | Obj(props: seq<Prop>)

  /** One own property of an object, in insertion order. */
  datatype Prop = Prop(key: string, val: Value)

  /** JavaScript truthiness, as used by `x || default` (NaN and -0 are not modelled). */
  predicate Truthy(v: Value)
  {
    match v
    case Undefined => false
    case Null => false
    case Bool(b) => b
    case Num(n) => n != 0
    case Str(s) => s != ""
    case Arr(_) => true
    case Obj(_) => true
  }

  /** The character of one decimal digit, `'0'` to `'9'`. */
  function Digit(d: nat): (c: char)
    requires d < 10
    ensures '0' <= c <= '9' && c as int - '0' as int == d
  {
    ('0' as int + d) as char
  }

  predicate IsDigits(s: string)
  {
    forall i :: 0 <= i < |s| ==> '0' <= s[i] <= '9'
  }

  /** Reads a string of decimal digits, most significant digit first. */
  function DigitsValue(s: string): nat
    requires IsDigits(s)
  {
    if s == [] then 0 else DigitsValue(s[..|s| - 1]) * 10 + (s[|s| - 1] as int - '0' as int)
  }

  /** The canonical decimal spelling of a natural number, as `String(n)` produces it:
      digits only, no leading zero, and it reads back as `n`. */
  function Decimal(n: nat): (r: string)
    ensures |r| >= 1 && IsDigits(r)
    ensures |r| > 1 ==> r[0] != '0'
    ensures DigitsValue(r) == n
    decreases n
  {
    if n < 10 then [Digit(n)]
    else
      var r := Decimal(n / 10) + [Digit(n % 10)];
      assert r[..|r| - 1] == Decimal(n / 10);
      r
  }

  /** The own enumerable properties that object spread `{...v}` copies out of `v`, in order:
      an object's properties, an array's or a string's elements under their index keys,
      and nothing at all for the primitives `undefined`, `null`, booleans and numbers. */
  function OwnProps(v: Value): (ps: seq<Prop>)
    ensures !Truthy(v) ==> ps == []
    ensures v.Obj? ==> ps == v.props
    ensures v.Bool? || v.Num? ==> ps == []
    ensures v.Arr? ==> |ps| == |v.elems| && forall i :: 0 <= i < |ps| ==> ps[i] == Prop(Decimal(i), v.elems[i])
    ensures v.Str? ==> |ps| == |v.s| && forall i :: 0 <= i < |ps| ==> ps[i] == Prop(Decimal(i), Str([v.s[i]]))
  {
    match v
    case Obj(props) => props
    case Arr(elems) => seq(|elems|, i requires 0 <= i < |elems| => Prop(Decimal(i), elems[i]))
    case Str(s) => seq(|s|, i requires 0 <= i < |s| => Prop(Decimal(i), Str([s[i]])))
    case _ => []
  }
}

=== FILE: wrappers.dfy ===
/** Failure-compatible wrappers used by the model: an optional value and a success-or-error result. */
module Wrappers {

  datatype Option<+T> = None | Some(value: T)

  /** The outcome of a call into the document store: the stored value, or the error's message. */
  datatype Result<+R, +E> = Success(value: R) | Failure(error: E)
}
